=== FILE: README.md ===
# ippd exercises: a verified Dafny model

This project models the parts of the `ippd` repository (parallel-programming
exercises in C with OpenMP and MPI) whose behaviour is integer or string
logic. Each part is stated in Dafny and proved against a specification:

- **Terrain generator** (`trabalho-pratico-2/grid.c`), module `Terrain`.
  `f_tipo` is a stateless hash from global coordinates to one of five kinds
  of terrain. It uses C's truncating `%` and `abs`. `f_recurso` gives each
  kind its resource ceiling.
- **Simulation driver** (`trabalho-pratico-2/main.c`), module `Simulation`.
  It covers the startup check that the height divides among the processes,
  the 1-D horizontal slicing and the per-process agent share. It also
  covers the cycle loop that toggles the season every 25 cycles.
- **Synthetic workload** (`trabalho-pratico-2/agente.c`), module `Workload`.
  The loop length follows the cell's resource and is capped at
  `MAX_CUSTO_CARGA`.
- **Histogram** (`trabalho-pratico-1/src/omp/tarefaB_omp.c`), module
  `Histogram`. Versions 1 and 2 update a shared histogram. Version 3 counts
  each thread's chunk into a local histogram and merges it into the shared
  one. All three are proved to give the occurrence-count histogram.
- **Fibonacci fill** (`trabalho-pratico-1/src/seq/tarefaA_seq.c` and
  `trabalho-pratico-1/src/omp/tarefaA_omp.c`), module `FibonacciFill`. The
  programs set `v[i] = fib(i % K)`, sequentially or in the order a run-time
  OpenMP schedule chooses. The OpenMP version also maps a schedule id to a
  schedule.
- **Schedule label** (end of `main` in
  `trabalho-pratico-1/src/omp/tarefaD_omp.c`), module `ScheduleLabel`.
  `OMP_SCHEDULE`, or `"default"`, is copied into a 64-byte buffer. When the
  value came from the environment, every `,` in it is rewritten to `-`.

Module `CSemantics` holds C's integer behaviour where it differs from
Dafny's: `/` and `%` truncate toward zero, and so does the conversion of a
`double` to `long`.

Two facts about the driver are worth stating outright:

- `main.c` checks `H_GLOBAL % size` at startup and returns 1 before the
  cycle loop when the height does not divide (`Decompose`, `Run`).
- `main.c` gives each process `N_AGENTES_GLOBAL / size` agents, which in
  general drops `N_AGENTES_GLOBAL % size` agents
  (`TotalShareDropsRemainder`). With the source's constants every process
  count that passes the height check also divides 5000, so none is
  dropped (`NoAgentDropped`).

The terrain generator depends on nothing but the global cell it is given,
so every process that asks for the same cell sees the same terrain; in the
model this holds by construction, because `KindAt` is a function of
`(gx, gy)` alone.

## Model

| member | source | states |
|---|---|---|
| CSemantics.Abs | trabalho-pratico-2/grid.c:6 | `abs`: the result is non-negative and is the argument or its negation |
| CSemantics.CRem | trabalho-pratico-2/grid.c:5 | C's `%`: quotient times divisor plus remainder gives the dividend back; the remainder is smaller than the divisor in magnitude and has the dividend's sign |
| CSemantics.CDiv | trabalho-pratico-2/grid.c:5 | the quotient that C's `%` goes with: its magnitude is the quotient of the magnitudes (truncation toward zero) |
| CSemantics.TruncToInt | trabalho-pratico-2/agente.c:4 | the `(long)` cast of a double: the result is the integer part, toward zero, within one of the value |
| Terrain.Code | trabalho-pratico-2/grid.h:5-11 | each kind's enum value lies in 0..4 |
| Terrain.KindOf | trabalho-pratico-2/grid.c:6 | the cast `(TipoCelula)n` of a value in 0..4 gives the enumerator whose value is n |
| Terrain.CodeRoundTrip | trabalho-pratico-2/grid.h:5-11 | casting an enumerator's value back gives the same enumerator |
| Terrain.KindCode | trabalho-pratico-2/grid.c:4-6 | `abs` of the truncated remainder mod 5 always lies in 0..4 |
| Terrain.KindAt | trabalho-pratico-2/grid.c:4-7 | `f_tipo` returns the enumerator whose value is the hash code |
| Terrain.CeilingOfCode | trabalho-pratico-2/grid.c:9-18 | the five enum values get ceilings in [0, 100]; only the restricted kind (value 4) gets 0; every other integer falls to the default 10 |
| Terrain.Ceiling | trabalho-pratico-2/grid.c:9-18 | every kind's ceiling is in [0, 100], and it is 0 exactly for restricted land |
| Terrain.CeilingOrder | trabalho-pratico-2/grid.c:10-15 | the ceilings are 0, 30, 50, 80, 100 for restricted, gathering, fishing, farmland and village; village is the largest |
| Terrain.DefaultCeilingUnreachable | trabalho-pratico-2/grid.c:16 | for every generated cell the `default` branch is not taken, and the ceiling equals that of the cell's kind |
| Terrain.KindCodeOfNonNegative | trabalho-pratico-2/grid.c:5 | for non-negative coordinates the code is (gx + 2*gy) mod 5 |
| Terrain.KindPeriodic | trabalho-pratico-2/grid.c:5 | for non-negative coordinates, moving five columns or five rows keeps the kind |
| Terrain.KindMirrored | trabalho-pratico-2/grid.c:5-6 | because of truncation and `abs`, the cell (-gx, -gy) has the same kind as (gx, gy) |
| Simulation.Decompose | trabalho-pratico-2/main.c:23-54 | rejects with exit code 1 exactly when H_GLOBAL % size != 0; otherwise h_local * size == H_GLOBAL, offset_y == rank * h_local, full width, offset_x == 0, and the shares multiply back to N_AGENTES_GLOBAL |
| Simulation.AgentsDivideWhenRowsDo | trabalho-pratico-2/main.c:54 | every process count that divides 1000 also divides 5000 |
| Simulation.BandsInsideGrid | trabalho-pratico-2/main.c:34-36 | every row of every band lies in [0, H_GLOBAL) |
| Simulation.BandsCoverGrid | trabalho-pratico-2/main.c:34-36 | every global row lies in the band of process g / h_local, which is a valid rank |
| Simulation.BandsDisjoint | trabalho-pratico-2/main.c:34-36 | a row in two processes' bands means the two ranks are equal |
| Simulation.OwnerHoldsCell | trabalho-pratico-2/main.c:33-49 | the process g / h_local is a valid rank, and the global cell (gx, gy) lies inside its sub-grid: 0 <= gx - offset_x < w_local and 0 <= gy - offset_y < h_local |
| Simulation.TotalShareDropsRemainder | trabalho-pratico-2/main.c:54 | with `n / size` each, the processes hold `n - n % size` agents together, never more than `n` |
| Simulation.NoAgentDropped | trabalho-pratico-2/main.c:54 | with the source's constants, the processes that pass the startup check hold exactly N_AGENTES_GLOBAL agents |
| Simulation.Toggle | trabalho-pratico-2/main.c:61 | the new season is 0 or 1, and it is 0 exactly when the old one was not |
| Simulation.SeasonStep | trabalho-pratico-2/main.c:60-61 | the season changes in cycle t exactly when t > 0 and t is a multiple of CICLO_SAZONAL_S, and a season code stays 0 or 1 |
| Simulation.SeasonAt | trabalho-pratico-2/main.c:57-66 | the closed form of the season is always 0 or 1 |
| Simulation.SeasonStepAdvances | trabalho-pratico-2/main.c:60-61 | one toggle step takes the season of cycle t-1 to the closed form (t / 25) % 2 of cycle t |
| Simulation.SeasonChanges | trabalho-pratico-2/main.c:57-61 | the season changes between cycles t-1 and t exactly when t is a multiple of 25; over 100 cycles that is t = 25, 50, 75 |
| Simulation.BroadcastChangesNothing | trabalho-pratico-2/main.c:60-65 | after a toggle, the root's season that `MPI_Bcast` delivers equals the season each process already computed for that cycle, so the broadcast changes nothing |
| Simulation.Run | trabalho-pratico-2/main.c:15-93 | exit code 1 with no cycle run when the height does not divide; otherwise 0 after 100 cycles, with the season of every cycle t equal to (t / 25) % 2 (0 at t = 0) |
| Workload.IterationBound | trabalho-pratico-2/agente.c:4-5 | the count never exceeds MAX_CUSTO_CARGA; a resource of 1000 or more gives exactly the cap; below it, the count is the truncation of resource * 1000; a negative resource gives no positive count |
| Workload.IterationBoundMonotone | trabalho-pratico-2/agente.c:4-5 | a larger resource never gives a smaller count |
| Workload.ExecuteWorkload | trabalho-pratico-2/agente.c:3-12 | the loop body runs max(0, count) times, at most MAX_CUSTO_CARGA, and zero times for a resource <= 0; nothing outside the function changes |
| Histogram.OccurrencesAppend | trabalho-pratico-1/src/omp/tarefaB_omp.c:52-68 | counts over two consecutive chunks add up to the count over their concatenation |
| Histogram.ExpectedSumsToLength | trabalho-pratico-1/src/omp/tarefaB_omp.c:34-69 | when every value lies in [0, B), the buckets of the occurrence histogram sum to N |
| Histogram.CountRange | trabalho-pratico-1/src/omp/tarefaB_omp.c:34-49 | `H[A[i]]++` over [lo, hi) adds to each bucket j the number of positions in the range holding j; `A` is not written |
| Histogram.MergeInto | trabalho-pratico-1/src/omp/tarefaB_omp.c:62-66 | the manual reduction adds each local bucket to the shared one |
| Histogram.CountLocalMerge | trabalho-pratico-1/src/omp/tarefaB_omp.c:50-68 | with any contiguous split into per-thread chunks, local counting plus merging adds the same occurrence counts as versions 1 and 2 |
| Histogram.ChunkBoundsInRange | trabalho-pratico-1/src/omp/tarefaB_omp.c:57-60 | every chunk boundary of the split lies in [0, N] |
| Histogram.Inputs | trabalho-pratico-1/src/omp/tarefaB_omp.c:26-30 | `rand() % B` of non-negative draws gives N values, each in [0, B), so every `H[A[i]]` is in bounds |
| Histogram.FillInputs | trabalho-pratico-1/src/omp/tarefaB_omp.c:28-30 | the fill loop leaves a fresh array holding exactly those values |
| Histogram.RunHistogram | trabalho-pratico-1/src/omp/tarefaB_omp.c:11-79 | exit code 1 with nothing allocated when argc < 4; otherwise versions 1, 2 and 3 all leave H equal to the occurrence histogram of A, whose buckets sum to N, and any other version leaves H all zero |
| FibonacciFill.Fib | trabalho-pratico-1/src/seq/tarefaA_seq.c:6-9 | `fib` is non-negative on natural arguments and at least 1 from 1 on (also tarefaA_omp.c:7-10, the same definition) |
| FibonacciFill.FibRecurrence | trabalho-pratico-1/src/omp/tarefaA_omp.c:7-10 | fib(n) == n for n < 2, and fib(n) == fib(n-1) + fib(n-2) otherwise |
| FibonacciFill.FibMonotone | trabalho-pratico-1/src/seq/tarefaA_seq.c:6-9 | fib is non-decreasing over all integers |
| FibonacciFill.Slot | trabalho-pratico-1/src/seq/tarefaA_seq.c:47 | `fib(i % K)` with C's `%`: for i >= 0 it is fib of the mathematical remainder by abs(K), whatever the sign of K; a negative i gives a non-positive value |
| FibonacciFill.SlotBounds | trabalho-pratico-1/src/omp/tarefaA_omp.c:52-54 | every entry fib(i % K) with i >= 0 lies between 0 and fib(abs(K) - 1) |
| FibonacciFill.SlotPeriodic | trabalho-pratico-1/src/seq/tarefaA_seq.c:46-48 | for i >= 0 the filled table repeats with period abs(K) |
| FibonacciFill.FillSequential | trabalho-pratico-1/src/seq/tarefaA_seq.c:46-48 | after the loop, v[i] == fib(i % K) for every i < N, with C's `%` |
| FibonacciFill.ScheduleOf | trabalho-pratico-1/src/omp/tarefaA_omp.c:34-40 | id 1 picks dynamic and id 2 guided, each exactly; every other id, 0 included, picks static |
| FibonacciFill.FillScheduled | trabalho-pratico-1/src/omp/tarefaA_omp.c:47-63 | whatever order the schedule runs the iterations in, each exactly once, afterwards v[i] == fib(i % K) for every i < N |
| FibonacciFill.RunSequential | trabalho-pratico-1/src/seq/tarefaA_seq.c:25-58 | exit code 1 without filling when argc < 3 or `malloc` fails; otherwise 0, with a buffer of N entries each fib(i % K) |
| FibonacciFill.RunScheduled | trabalho-pratico-1/src/omp/tarefaA_omp.c:12-73 | exit code 1 without filling when argc < 5 or `malloc` fails; otherwise 0, the schedule picked from the id, and the same table as the sequential program for every iteration order |
| ScheduleLabel.CString | trabalho-pratico-1/src/omp/tarefaD_omp.c:166 | the string of a buffer is its prefix before the first NUL; it contains no NUL and is followed by one when shorter than the buffer |
| ScheduleLabel.CStringAt | trabalho-pratico-1/src/omp/tarefaD_omp.c:166 | a buffer whose first NUL is at n holds the string buf[..n] |
| ScheduleLabel.Truncated | trabalho-pratico-1/src/omp/tarefaD_omp.c:165 | snprintf into 64 bytes keeps the first min(len, 63) characters of the source |
| ScheduleLabel.Dash | trabalho-pratico-1/src/omp/tarefaD_omp.c:167 | the result is never `,`; a non-comma is unchanged; the result is `-` exactly when the input was `,` or `-` |
| ScheduleLabel.Sanitized | trabalho-pratico-1/src/omp/tarefaD_omp.c:166-168 | same length; each `,` becomes `-` at the same position and every other character is unchanged |
| ScheduleLabel.SanitizedProperties | trabalho-pratico-1/src/omp/tarefaD_omp.c:166-168 | the result has no `,`, no NUL if the input had none, and sanitising twice equals sanitising once |
| ScheduleLabel.SanitizedExample | trabalho-pratico-1/src/omp/tarefaD_omp.c:175 | "static,64" becomes "static-64" |
| ScheduleLabel.CopyInto | trabalho-pratico-1/src/omp/tarefaD_omp.c:163-165 | after the copy the buffer's string is the first min(len, 63) characters of the source |
| ScheduleLabel.RewriteCommas | trabalho-pratico-1/src/omp/tarefaD_omp.c:166-168 | the loop stops at the first NUL; the buffer's string becomes its sanitised form; the terminator and the bytes after it are untouched |
| ScheduleLabel.Label | trabalho-pratico-1/src/omp/tarefaD_omp.c:162-171 | unset: exactly "default"; set: the sanitised first min(len, 63) characters; either way no `,` and fewer than 64 characters |

## Left out

- The simulation steps that exist only as TODO comments in `main.c`: halo exchange, agent stepping, migration and global metrics.
- `alocar_grid_local`, `inicializar_grid_local`, `atualizar_grid_local` and `liberar_grid_local` are declared in `grid.h`, but their bodies are not part of this model. `Run` does not model the grid update it calls each cycle.
- MPI plumbing (`MPI_Init`, `MPI_Comm_rank`, `MPI_Comm_size`, `MPI_Barrier`, `MPI_Finalize`). `rank` and `size` are parameters. `MPI_Bcast` is `Broadcast`, which delivers the root's value.
- OpenMP threads, `critical`, `atomic` and data races. Only the sequential meaning of each parallel loop is modelled.
- CountLocalMerge: models the contiguous chunk split of a static schedule. A split that gives a thread indices that are not contiguous is not modelled.
- Floating-point code: the reduction variants of `tarefaD_omp.c`, the SAXPY and region programs, and the `dummy` accumulation of `executar_carga`. The resource of `executar_carga` is an exact real.
- Timing (`omp_get_wtime`, `clock_gettime`), `printf` output, terminal rendering, file logging and the plotting scripts.
- Input generation: the values `rand` returns are the `draws` parameter. `atoi` parsing is also out: arguments are given already parsed, with only `argc` checked.
- RunSequential and RunScheduled: whether `malloc` succeeds is the `mallocOk` parameter.
- RunSequential, RunScheduled: `K == 0` with `N > 0` is a C division by zero in `i % K`; the model requires `K != 0` in that case (as do FillSequential and FillScheduled).
- RunHistogram: the source does not check `malloc`/`calloc` for failure, and the model assumes both succeed. `B > 0` is required. With `B == 0` and `N > 0`, `rand() % B` divides by zero. With `B < 0` and `N > 0`, `calloc((size_t)B, …)` fails and versions 1-3 write through the null pointer. Three runs with `B <= 0` are still defined and are not modelled, and all end with exit code 0: `N == 0` with `B == 0`; `N == 0` with `B < 0` and any version, since every counting and merge loop then runs no iteration; and `B < 0` with a version outside 1..3. `N < 0` is not modelled either, since N is the length of `draws`: `malloc` of the wrapped size fails, no loop runs, and the run ends with exit code 0 and `H` all zero, so its buckets sum to 0 rather than N.
- RunScheduled: `chunk_size` is not a parameter. It only shapes the order in which iterations run, and the `order` parameter covers every such order.
- KindCode: uses unbounded integers. `gx * 31 + gy * 7` overflowing 32 bits is undefined in C and is not modelled; the simulation's coordinates stay below 1000.
- Fib: uses unbounded integers. The `long long` overflow for arguments of 93 and above is not modelled.
- IterationBound: does not model the undefined `(long)` cast of a product beyond the range of `long`.
- Label: the bytes after the terminator are uninitialised in C. The model says nothing about them.
- Label, CopyInto, Truncated: one Dafny `char` stands for one byte of `OMP_SCHEDULE`. `snprintf` truncates at 63 bytes, so a value holding multi-byte characters is truncated by bytes, not by characters, which the model does not distinguish.
- CeilingOfCode, Ceiling: `grid.c:15` names the case `INTERDITA`, while `grid.h:10` declares the enumerator `INTERDITADA`, so `grid.c` as written does not compile. The model reads that case as the enumerator's value 4, the only reading under which the switch covers the enum.

=== FILE: c_semantics.dfy ===
/** Integer behaviour of C that differs from Dafny's built-in operators. */
module CSemantics {

  /** `abs` from <stdlib.h>, on unbounded integers. */
  function Abs(x: int): (r: nat)
    ensures r == x || r == -x
  {
    if x < 0 then -x else x
  }

  /** C's `/` on `int`: the quotient is truncated toward zero. */
  function CDiv(a: int, b: int): (q: int)
    requires b != 0
    ensures Abs(q) == Abs(a) / Abs(b)
  {
    var m := Abs(b);
    var d := Abs(a) / m;
    assert d >= 0;
    if (a >= 0 && b > 0) || (a < 0 && b < 0) then d else -d
  }

  /** C's `%` on `int`: the remainder that goes with the truncated quotient,
      so a non-zero remainder takes the sign of the dividend (Dafny's `%` is
      Euclidean and never negative). */
  function CRem(a: int, b: int): (r: int)
    requires b != 0
    ensures a == CDiv(a, b) * b + r
    ensures Abs(r) < Abs(b)
    ensures a >= 0 ==> r >= 0
    ensures a <= 0 ==> r <= 0
  {
    var m := Abs(b);
    if a >= 0 then a % m else -((-a) % m)
  }

  /** The conversion of a `double` to `long` in C: truncation toward zero. */
  function TruncToInt(x: real): (r: int)
    ensures x >= 0.0 ==> 0 <= r && r as real <= x < r as real + 1.0
    ensures x < 0.0 ==> r <= 0 && r as real - 1.0 < x <= r as real
  {
    if x >= 0.0 then x.Floor else -((-x).Floor)
  }

  /** Quotient and remainder of a division by a positive divisor are unique. */
  lemma DivModUnique(n: int, d: int, q: int, r: int)
    requires d >= 1 && n == q * d + r && 0 <= r < d
    ensures n / d == q && n % d == r
  {
    var q', r' := n / d, n % d;
    assert (q - q') * d == r' - r;
    ScaledAwayFromZero(q - q', d);
  }

  /** A non-zero multiple of `d` is at least `d` away from zero. */
  lemma ScaledAwayFromZero(k: int, d: int)
    requires d >= 1
    ensures k >= 1 ==> k * d >= d
    ensures k <= -1 ==> k * d <= -d
  {
  }
}

=== FILE: fibonacci.dfy ===
/** The Fibonacci fill exercise: `v[i] = fib(i % K)` for i in [0, N), run
    sequentially (trabalho-pratico-1/src/seq/tarefaA_seq.c) and as an OpenMP
    loop whose schedule is picked at run time
    (trabalho-pratico-1/src/omp/tarefaA_omp.c). Both programs define the
    same recursive `fib`, modelled once here. */
module FibonacciFill {
  import opened CSemantics

  /** The recursive `fib` of both programs, on unbounded integers: never
      negative on a natural argument, and at least 1 from 1 on. */
  function Fib(n: int): (r: int)
    ensures n >= 0 ==> r >= 0
    ensures n >= 1 ==> r >= 1
    decreases n
  {
    if n < 2 then n else Fib(n - 1) + Fib(n - 2)
  }

  /** The base cases and the recurrence the recursive definition follows. */
  lemma FibRecurrence(n: int)
    ensures n < 2 ==> Fib(n) == n
    ensures n >= 2 ==> Fib(n) == Fib(n - 1) + Fib(n - 2)
  {
  }

  /** One step never lowers `fib`. */
  lemma FibStepUp(n: int)
    ensures Fib(n) <= Fib(n + 1)
  {
  }

  /** `fib` is non-decreasing over all integers. */
  lemma {:induction false} FibMonotone(m: int, n: int)
    requires m <= n
    ensures Fib(m) <= Fib(n)
    decreases n - m
  {
    if m < n {
      FibMonotone(m, n - 1);
      FibStepUp(n - 1);
    }
  }

  /** The value each slot of `v` must hold: `fib(i % K)` with C's `%`. For
      the loop's indices i >= 0 that is fib of the mathematical remainder
      by |K|, whatever the sign of K; a negative index would give a
      non-positive value. */
  function Slot(i: int, K: int): (r: int)
    requires K != 0
    ensures i >= 0 ==> r == Fib(i % Abs(K))
    ensures i < 0 ==> r <= 0
  {
    Fib(CRem(i, K))
  }

  /** For i >= 0 every slot lies between fib(0) and fib(|K| - 1), the
      largest value the remainder can reach. */
  lemma SlotBounds(i: int, K: int)
    requires i >= 0 && K != 0
    ensures 0 <= Slot(i, K) <= Fib(Abs(K) - 1)
  {
    FibMonotone(CRem(i, K), Abs(K) - 1);
  }

  /** For i >= 0 the table repeats with period |K|. */
  lemma SlotPeriodic(i: int, K: int)
    requires i >= 0 && K != 0
    ensures Slot(i + Abs(K), K) == Slot(i, K)
  {
    var m := Abs(K);
    assert CRem(i, K) == i % m;
    assert CRem(i + m, K) == (i + m) % m;
    DivModUnique(i + m, m, i / m + 1, i % m);
  }

  /** The sequential loop of tarefaA_seq.c, `for (i = 0; i < N; i++) v[i] = fib(i % K)`. */
  method FillSequential(v: array<int>, K: int)
    requires v.Length > 0 ==> K != 0
    modifies v
    ensures forall i :: 0 <= i < v.Length ==> v[i] == Slot(i, K)
  {
    for i := 0 to v.Length
      invariant forall k :: 0 <= k < i ==> v[k] == Slot(k, K)
    {
      v[i] := Slot(i, K);
    }
  }

  /** The runtime schedules of OpenMP that `omp_set_schedule` can select. */
  datatype Schedule = Static | Dynamic | Guided

  /** The `switch` on `schedule_type_id`: 0, 1 and 2 pick static, dynamic and
      guided, and any other value falls back to static. */
  function ScheduleOf(id: int): (s: Schedule)
    ensures s == Dynamic <==> id == 1
    ensures s == Guided <==> id == 2
    ensures s == Static <==> id != 1 && id != 2
  {
    if id == 0 then Static
    else if id == 1 then Dynamic
    else if id == 2 then Guided
    else Static
  }

  /** The order in which a schedule runs the iterations of a loop over
      [0, n): each iteration exactly once. */
  predicate IsIterationOrder(order: seq<int>, n: int)
  {
    && |order| == n
    && (forall p :: 0 <= p < |order| ==> 0 <= order[p] < n)
    && (forall p, q :: 0 <= p < q < |order| ==> order[p] != order[q])
    && (forall i :: 0 <= i < n ==> i in order)
  }

  /** The `omp for schedule(runtime)` loop of tarefaA_omp.c: the iterations
      run in whatever order the schedule hands them out, and since each one
      writes only its own slot the result is the same for every order. */
  method FillScheduled(v: array<int>, K: int, order: seq<int>)
    requires v.Length > 0 ==> K != 0
    requires IsIterationOrder(order, v.Length)
    modifies v
    ensures forall i :: 0 <= i < v.Length ==> v[i] == Slot(i, K)
  {
    for p := 0 to |order|
      invariant forall q :: 0 <= q < p ==> v[order[q]] == Slot(order[q], K)
    {
      var i := order[p];
      v[i] := Slot(i, K);
    }
    forall i | 0 <= i < v.Length
      ensures v[i] == Slot(i, K)
    {
      assert i in order;
      var q :| 0 <= q < |order| && order[q] == i;
    }
  }

  /** `main` of tarefaA_seq.c after argument parsing: `argc` is the count
      of command-line words, `N` and `K` the parsed arguments, and
      `mallocOk` whether `malloc` returned a buffer. `v` is the final
      content of the buffer. */
  method RunSequential(argc: int, N: int, K: int, mallocOk: bool) returns (exitCode: int, v: seq<int>)
    requires argc >= 3 && mallocOk && N > 0 ==> K != 0
    ensures exitCode == (if argc < 3 || !mallocOk then 1 else 0)
    ensures exitCode == 1 ==> v == []
    ensures exitCode == 0 ==> |v| == (if N > 0 then N else 0)
    ensures exitCode == 0 ==> forall i :: 0 <= i < |v| ==> v[i] == Slot(i, K)
  {
    if argc < 3 || !mallocOk {
      return 1, [];
    }
    var buffer := new int[if N > 0 then N else 0];
    FillSequential(buffer, K);
    return 0, buffer[..];
  }

  /** `main` of tarefaA_omp.c: as `RunSequential`, with the schedule id
      (`chunk_size` only shapes the order, so it is not a parameter) and
      the iteration order the chosen schedule produces. */
  method RunScheduled(argc: int, N: int, K: int, scheduleId: int, mallocOk: bool, order: seq<int>)
    returns (exitCode: int, schedule: Schedule, v: seq<int>)
    requires argc >= 5 && mallocOk && N > 0 ==> K != 0
    requires argc >= 5 && mallocOk ==> IsIterationOrder(order, if N > 0 then N else 0)
    ensures exitCode == (if argc < 5 || !mallocOk then 1 else 0)
    ensures exitCode == 1 ==> v == []
    ensures exitCode == 0 ==> schedule == ScheduleOf(scheduleId)
    ensures exitCode == 0 ==> |v| == (if N > 0 then N else 0)
    ensures exitCode == 0 ==> forall i :: 0 <= i < |v| ==> v[i] == Slot(i, K)
  {
    schedule := Static;
    if argc < 5 || !mallocOk {
      return 1, schedule, [];
    }
    var buffer := new int[if N > 0 then N else 0];
    schedule := ScheduleOf(scheduleId);
    FillScheduled(buffer, K, order);
    return 0, schedule, buffer[..];
  }
}

=== FILE: histogram.dfy ===
/** The histogram exercise (trabalho-pratico-1/src/omp/tarefaB_omp.c): count
    how often each bin value in [0, B) occurs in an array of N values, with a
    shared histogram updated under `critical` (version 1) or `atomic`
    (version 2), or with per-thread local histograms merged into the shared
    one (version 3). Only the sequential meaning of each version is modelled:
    versions 1 and 2 perform the same increments, and the iterations of
    version 3 are split into contiguous chunks, one per thread. */
module Histogram {

  /** Number of positions of `s` that hold `v`. */
  function Occurrences(s: seq<int>, v: int): (n: nat)
    ensures n <= |s|
  {
    if s == [] then 0
    else Occurrences(s[..|s| - 1], v) + (if s[|s| - 1] == v then 1 else 0)
  }

  /** Counting over a concatenation adds the counts of the two parts. */
  lemma {:induction false} OccurrencesAppend(a: seq<int>, b: seq<int>, v: int)
    ensures Occurrences(a + b, v) == Occurrences(a, v) + Occurrences(b, v)
  {
    if b != [] {
      assert (a + b)[..|a + b| - 1] == a + b[..|b| - 1];
      OccurrencesAppend(a, b[..|b| - 1], v);
    } else {
      assert a + b == a;
    }
  }

  /** The occurrence-count histogram of `s` over the bins [0, bins). */
  function Expected(s: seq<int>, bins: nat): seq<int>
  {
    seq(bins, j => Occurrences(s, j))
  }

  function Sum(h: seq<int>): int
  {
    if h == [] then 0 else Sum(h[..|h| - 1]) + h[|h| - 1]
  }

  /** Adding `d` to one bucket adds `d` to the sum. */
  lemma {:induction false} SumBump(h: seq<int>, k: nat, d: int)
    requires k < |h|
    ensures Sum(h[k := h[k] + d]) == Sum(h) + d
  {
    var h' := h[k := h[k] + d];
    if k == |h| - 1 {
      assert h'[..|h'| - 1] == h[..|h| - 1];
    } else {
      assert h'[..|h'| - 1] == h[..|h| - 1][k := h[k] + d];
      SumBump(h[..|h| - 1], k, d);
    }
  }

  /** Values all lie inside the bins. */
  predicate InBins(s: seq<int>, bins: int)
  {
    forall i :: 0 <= i < |s| ==> 0 <= s[i] < bins
  }

  /** When every value lies in a bin, the buckets count every element once:
      they sum to N. */
  lemma {:induction false} ExpectedSumsToLength(s: seq<int>, bins: nat)
    requires InBins(s, bins)
    ensures Sum(Expected(s, bins)) == |s|
  {
    if s == [] {
      ZeroHistogramSum(bins);
      assert Expected(s, bins) == seq(bins, _ => 0);
    } else {
      var init, x := s[..|s| - 1], s[|s| - 1];
      assert InBins(init, bins);
      ExpectedSumsToLength(init, bins);
      var h := Expected(init, bins);
      assert Expected(s, bins) == h[x := h[x] + 1];
      SumBump(h, x, 1);
    }
  }

  lemma {:induction false} ZeroHistogramSum(bins: nat)
    ensures Sum(seq(bins, _ => 0)) == 0
  {
    if bins > 0 {
      assert seq(bins, _ => 0)[..bins - 1] == seq(bins - 1, _ => 0);
      ZeroHistogramSum(bins - 1);
    }
  }

  /** The loop body of versions 1 and 2, `H[A[i]]++` for i in [lo, hi); in
      version 3 the same loop counts one thread's chunk into its local
      histogram. `A` is only read. */
  method CountRange(A: array<int>, lo: nat, hi: nat, H: array<int>)
    requires A != H
    requires lo <= hi <= A.Length
    requires forall i :: lo <= i < hi ==> 0 <= A[i] < H.Length
    modifies H
    ensures forall j :: 0 <= j < H.Length ==> H[j] == old(H[j]) + Occurrences(A[lo..hi], j)
  {
    for i := lo to hi
      invariant forall j :: 0 <= j < H.Length ==> H[j] == old(H[j]) + Occurrences(A[lo..i], j)
    {
      assert A[lo..i + 1][..i - lo] == A[lo..i];
      H[A[i]] := H[A[i]] + 1;
    }
  }

  /** The manual reduction of version 3: `H[j] += local_H[j]` for every bin. */
  method MergeInto(H: array<int>, local: array<int>)
    requires H != local && local.Length == H.Length
    modifies H
    ensures forall j :: 0 <= j < H.Length ==> H[j] == old(H[j]) + local[j]
  {
    for j := 0 to H.Length
      invariant forall k :: 0 <= k < j ==> H[k] == old(H[k]) + local[k]
      invariant forall k :: j <= k < H.Length ==> H[k] == old(H[k])
    {
      H[j] := H[j] + local[j];
    }
  }

  /** The iteration space [0, n) split into contiguous chunks, chunk `t`
      being [bounds[t], bounds[t + 1]), as a static schedule does. */
  predicate IsChunking(bounds: seq<int>, n: int)
  {
    && |bounds| >= 2
    && bounds[0] == 0
    && bounds[|bounds| - 1] == n
    && forall t :: 0 <= t < |bounds| - 1 ==> 0 <= bounds[t] <= bounds[t + 1]
  }

  /** Version 3: each thread counts its chunk into a zeroed local histogram
      (`calloc`) and adds it into `H`. */
  method CountLocalMerge(A: array<int>, H: array<int>, bounds: seq<int>)
    requires A != H
    requires IsChunking(bounds, A.Length)
    requires forall i :: 0 <= i < A.Length ==> 0 <= A[i] < H.Length
    modifies H
    ensures forall j :: 0 <= j < H.Length ==> H[j] == old(H[j]) + Occurrences(A[..], j)
  {
    var threads := |bounds| - 1;
    ChunkBoundsInRange(bounds, A.Length);
    for t := 0 to threads
      invariant forall j :: 0 <= j < H.Length ==> H[j] == old(H[j]) + Occurrences(A[..bounds[t]], j)
    {
      var lo, hi := bounds[t], bounds[t + 1];
      var local := new int[H.Length](_ => 0);
      CountRange(A, lo, hi, local);
      MergeInto(H, local);
      assert A[..hi] == A[..lo] + A[lo..hi];
      forall j | 0 <= j < H.Length
        ensures H[j] == old(H[j]) + Occurrences(A[..hi], j)
      {
        OccurrencesAppend(A[..lo], A[lo..hi], j);
      }
    }
    assert A[..bounds[threads]] == A[..];
  }

  /** Every chunk boundary lies inside the iteration space. */
  lemma ChunkBoundsInRange(bounds: seq<int>, n: int)
    requires IsChunking(bounds, n)
    ensures forall t :: 0 <= t < |bounds| ==> 0 <= bounds[t] <= n
  {
    var t := |bounds| - 1;
    assert 0 <= bounds[t - 1] <= bounds[t];
    while t > 0
      invariant 0 <= t < |bounds|
      invariant forall k :: t <= k < |bounds| ==> 0 <= bounds[k] <= n
    {
      assert 0 <= bounds[t - 1] <= bounds[t];
      t := t - 1;
    }
  }

  /** The input array of the program: `A[i] = rand() % B`, where `draws[i]`
      is the i-th non-negative value returned by `rand`. */
  function Inputs(draws: seq<int>, bins: int): (a: seq<int>)
    requires bins > 0
    requires forall i :: 0 <= i < |draws| ==> draws[i] >= 0
    ensures |a| == |draws| && InBins(a, bins)
  {
    seq(|draws|, i requires 0 <= i < |draws| => draws[i] % bins)
  }

  /** The fill loop of `main`, `A[i] = rand() % B`. */
  method FillInputs(draws: seq<int>, bins: int) returns (A: array<int>)
    requires bins > 0
    requires forall i :: 0 <= i < |draws| ==> draws[i] >= 0
    ensures fresh(A) && A[..] == Inputs(draws, bins)
  {
    A := new int[|draws|];
    for i := 0 to |draws|
      invariant forall k :: 0 <= k < i ==> A[k] == draws[k] % bins
    {
      A[i] := draws[i] % bins;
    }
  }

  /** `main`: the argument check, the allocation and zeroing of `H`, the
      input fill and the version the user picked. `h` is the final content of
      `H`. Argument strings are given already parsed (`N` is `|draws|`),
      and `bounds` is the split of iterations among threads that the
      OpenMP runtime chooses for version 3. */
  method RunHistogram(argc: int, draws: seq<int>, bins: int, version: int, bounds: seq<int>)
    returns (exitCode: int, h: seq<int>)
    requires argc >= 4 ==> bins > 0 && forall i :: 0 <= i < |draws| ==> draws[i] >= 0
    requires argc >= 4 && version == 3 ==> IsChunking(bounds, |draws|)
    ensures exitCode == (if argc < 4 then 1 else 0)
    ensures exitCode == 1 ==> h == []
    ensures exitCode == 0 && version in {1, 2, 3} ==> h == Expected(Inputs(draws, bins), bins)
    ensures exitCode == 0 && version in {1, 2, 3} ==> Sum(h) == |draws|
    ensures exitCode == 0 && version !in {1, 2, 3} ==> h == seq(bins, _ => 0)
  {
    if argc < 4 {
      return 1, [];
    }
    var n := |draws|;
    var A := FillInputs(draws, bins);
    var H := new int[bins](_ => 0);
    if version == 1 || version == 2 {
      CountRange(A, 0, n, H);
      assert A[0..n] == A[..];
    } else if version == 3 {
      CountLocalMerge(A, H, bounds);
    }
    exitCode, h := 0, H[..];
    if version in {1, 2, 3} {
      ExpectedSumsToLength(A[..], bins);
    }
  }
}

=== FILE: schedule_label.dfy ===
/** The schedule label printed by the reduction benchmark
    (trabalho-pratico-1/src/omp/tarefaD_omp.c, end of `main`): the value of
    `OMP_SCHEDULE`, or "default" when it is unset, copied into a 64-byte
    buffer and, when it came from the environment, with every `,` rewritten
    to `-` so that the label does not split the CSV line it is printed in. */
module ScheduleLabel {

  const BufferSize: int := 64

  datatype Option<T> = None | Some(value: T)

  /** A C string: no character before its terminator is NUL. */
  predicate NoNul(s: string)
  {
    forall i :: 0 <= i < |s| ==> s[i] != '\0'
  }

  /** The string a NUL-terminated buffer holds: everything before the first NUL. */
  function CString(buf: seq<char>): (s: string)
    ensures |s| <= |buf| && NoNul(s)
    ensures s == buf[..|s|]
    ensures |s| < |buf| ==> buf[|s|] == '\0'
  {
    if buf == [] || buf[0] == '\0' then [] else [buf[0]] + CString(buf[1..])
  }

  /** A buffer whose first NUL is at `n` holds the string `buf[..n]`. */
  lemma {:induction false} CStringAt(buf: seq<char>, n: nat)
    requires n < |buf| && buf[n] == '\0' && NoNul(buf[..n])
    ensures CString(buf) == buf[..n]
  {
    if n > 0 {
      assert buf[1..][..n - 1] == buf[1..n];
      CStringAt(buf[1..], n - 1);
    }
  }

  /** What `snprintf(buf, 64, "%s", src)` leaves as the string: at most 63
      characters of `src`, the 64th byte being taken by the terminator. */
  function Truncated(src: string): (s: string)
    ensures |s| <= BufferSize - 1
    ensures |s| == if |src| < BufferSize then |src| else BufferSize - 1
    ensures s == src[..|s|]
  {
    if |src| < BufferSize then src else src[..BufferSize - 1]
  }

  /** The rewrite of one character: a comma becomes a dash, and nothing
      else changes. */
  function Dash(c: char): (d: char)
    ensures d != ','
    ensures c != ',' ==> d == c
    ensures d == '-' <==> c == ',' || c == '-'
  {
    if c == ',' then '-' else c
  }

  /** The rewrite `if (buf[i] == ',') buf[i] = '-'` applied to every character. */
  function Sanitized(s: string): (r: string)
    ensures |r| == |s|
    ensures forall i :: 0 <= i < |s| ==> r[i] == Dash(s[i])
  {
    if s == [] then [] else [Dash(s[0])] + Sanitized(s[1..])
  }

  /** The sanitised label has no comma, keeps every other character in
      place, and sanitising it again changes nothing. */
  lemma SanitizedProperties(s: string)
    ensures ',' !in Sanitized(s)
    ensures NoNul(s) ==> NoNul(Sanitized(s))
    ensures Sanitized(Sanitized(s)) == Sanitized(s)
    ensures forall i :: 0 <= i < |s| && s[i] != ',' ==> Sanitized(s)[i] == s[i]
  {
  }

  /** The example of the source's comment: "static,64" becomes "static-64". */
  lemma SanitizedExample()
    ensures Sanitized("static,64") == "static-64"
  {
  }

  /** `snprintf(buf, 64, "%s", src)` for a C string `src`. */
  method CopyInto(buf: array<char>, src: string)
    requires buf.Length == BufferSize && NoNul(src)
    modifies buf
    ensures CString(buf[..]) == Truncated(src)
  {
    var n := |Truncated(src)|;
    for i := 0 to n
      invariant buf[..i] == src[..i]
    {
      buf[i] := src[i];
    }
    buf[n] := '\0';
    assert buf[..n] == src[..n];
    CStringAt(buf[..], n);
  }

  /** `for (i = 0; buf[i]; i++) if (buf[i] == ',') buf[i] = '-';` */
  method RewriteCommas(buf: array<char>)
    requires exists k :: 0 <= k < buf.Length && buf[k] == '\0'
    modifies buf
    ensures CString(buf[..]) == Sanitized(CString(old(buf[..])))
    ensures forall k :: |CString(old(buf[..]))| <= k < buf.Length ==> buf[k] == old(buf[k])
  {
    ghost var s := CString(buf[..]);
    var i := 0;
    while buf[i] != '\0'
      invariant 0 <= i <= |s| < buf.Length
      invariant buf[..i] == Sanitized(s[..i])
      invariant forall k :: i <= k < buf.Length ==> buf[k] == old(buf[k])
      decreases |s| - i
    {
      if buf[i] == ',' {
        buf[i] := '-';
      }
      i := i + 1;
    }
    assert i == |s|;
    assert s[..i] == s;
    CStringAt(buf[..], i);
  }

  /** The label the benchmark prints for the schedule, given the value of
      `OMP_SCHEDULE` (`None` when unset). */
  method Label(env: Option<string>) returns (text: string)
    requires env.Some? ==> NoNul(env.value)
    ensures env.None? ==> text == "default"
    ensures env.Some? ==> text == Sanitized(Truncated(env.value))
    ensures ',' !in text && |text| < BufferSize
  {
    var buf := new char[BufferSize];
    if env.Some? {
      CopyInto(buf, env.value);
      RewriteCommas(buf);
      text := CString(buf[..]);
      SanitizedProperties(Truncated(env.value));
    } else {
      var fallback := "default";
      assert NoNul(fallback) && ',' !in fallback;
      CopyInto(buf, fallback);
      text := CString(buf[..]);
      assert text == fallback;
    }
  }
}

=== FILE: simulation.dfy ===
/** The driver of the MPI + OpenMP simulation (trabalho-pratico-2/main.c):
    the startup check, the 1-D horizontal decomposition of the global grid,
    the per-process share of agents and the cycle loop with its season clock.
    Each MPI process runs `Run` with its own `rank`; `size` is the number of
    processes. */
module Simulation {
  import opened CSemantics

  const WGlobal: int := 1000
  const HGlobal: int := 1000
  const Cycles: int := 100
  const SeasonPeriod: int := 25
  const AgentsGlobal: int := 5000

  /** What MPI guarantees about the rank and size it reports. */
  predicate ValidProcess(rank: int, size: int) {
    1 <= size && 0 <= rank < size
  }

  /** The local sub-grid of one process and its share of the agents. */
  datatype Layout = Layout(wLocal: int, hLocal: int, offsetX: int, offsetY: int, localAgents: int)

  /** Either the process goes on with its layout, or it stops with an exit code. */
  datatype Startup = Proceed(layout: Layout) | Reject(exitCode: int)

  /** Steps 1-4 of `main`: reject a height that the processes cannot share
      evenly, otherwise slice the grid horizontally and split the agents.
      Every `/` and `%` here has positive operands, where C and Dafny agree. */
  function Decompose(rank: int, size: int): (s: Startup)
    requires ValidProcess(rank, size)
    ensures s.Reject? <==> HGlobal % size != 0
    ensures s.Reject? ==> s.exitCode == 1
    ensures s.Proceed? ==>
              && s.layout.hLocal * size == HGlobal
              && s.layout.offsetY == rank * s.layout.hLocal
              && s.layout.wLocal == WGlobal && s.layout.offsetX == 0
              && s.layout.localAgents * size == AgentsGlobal
  {
    if HGlobal % size != 0 then Reject(1)
    else
      var h := HGlobal / size;
      AgentsDivideWhenRowsDo(size);
      Proceed(Layout(WGlobal, h, 0, rank * h, AgentsGlobal / size))
  }

  /** With these constants every process count that passes the startup
      check also divides the agent count (5000 is five times 1000), so the
      integer division drops no agent. */
  lemma AgentsDivideWhenRowsDo(size: int)
    requires size >= 1 && HGlobal % size == 0
    ensures AgentsGlobal % size == 0
    ensures (AgentsGlobal / size) * size == AgentsGlobal
  {
    var q := HGlobal / size;
    assert HGlobal == q * size;
    assert AgentsGlobal == (5 * q) * size;
    DivModUnique(AgentsGlobal, size, 5 * q, 0);
  }

  /** Global row `g` belongs to the band of process `rank`. */
  predicate InBand(g: int, rank: int, size: int)
    requires size >= 1
  {
    var h := HGlobal / size;
    rank * h <= g < rank * h + h
  }

  /** Every band lies inside the global grid. */
  lemma BandsInsideGrid(size: int, rank: int, g: int)
    requires ValidProcess(rank, size) && HGlobal % size == 0
    requires InBand(g, rank, size)
    ensures 0 <= g < HGlobal
  {
    var h := HGlobal / size;
    DivModUnique(HGlobal, size, h, 0);
    assert rank * h + h == (rank + 1) * h;
    assert (rank + 1) * h <= size * h;
  }

  /** Every global row belongs to the band of process `g / h_local`. */
  lemma BandsCoverGrid(size: int, g: int)
    requires size >= 1 && HGlobal % size == 0
    requires 0 <= g < HGlobal
    ensures 0 <= g / (HGlobal / size) < size
    ensures InBand(g, g / (HGlobal / size), size)
  {
    var h := HGlobal / size;
    DivModUnique(HGlobal, size, h, 0);
    assert h >= 1;
    var r := g / h;
    assert r * h <= g < r * h + h;
    ScaledAwayFromZero(r - size + 1, h);
  }

  /** No global row belongs to two processes' bands. */
  lemma BandsDisjoint(size: int, r1: int, r2: int, g: int)
    requires ValidProcess(r1, size) && ValidProcess(r2, size) && HGlobal % size == 0
    requires InBand(g, r1, size) && InBand(g, r2, size)
    ensures r1 == r2
  {
    var h := HGlobal / size;
    DivModUnique(HGlobal, size, h, 0);
    ScaledAwayFromZero(r2 - r1, h);
  }

  /** Every global cell (gx, gy) has an owner, the process gy / h_local, and
      lies inside that process's sub-grid: its local coordinates, the global
      ones minus the offsets, are within the local width and height. */
  lemma OwnerHoldsCell(size: int, gx: int, gy: int)
    requires size >= 1 && HGlobal % size == 0
    requires 0 <= gx < WGlobal && 0 <= gy < HGlobal
    ensures var rank := gy / (HGlobal / size);
            && ValidProcess(rank, size)
            && var l := Decompose(rank, size).layout;
            && 0 <= gx - l.offsetX < l.wLocal
            && 0 <= gy - l.offsetY < l.hLocal
  {
    BandsCoverGrid(size, gy);
  }

  /** The number of agents that `size` processes hold together when each
      takes `n / size`. */
  function TotalShare(n: nat, size: nat, ranks: nat): nat
    requires size >= 1
  {
    if ranks == 0 then 0 else TotalShare(n, size, ranks - 1) + n / size
  }

  /** The even split drops the remainder of the division and no more: the
      processes hold `n - n % size` agents together, never more than `n`. */
  lemma {:induction false} TotalShareDropsRemainder(n: nat, size: nat)
    requires size >= 1
    ensures TotalShare(n, size, size) == n - n % size
    ensures TotalShare(n, size, size) <= n
  {
    TotalShareIsProduct(n, size, size);
  }

  lemma {:induction false} TotalShareIsProduct(n: nat, size: nat, ranks: nat)
    requires size >= 1
    ensures TotalShare(n, size, ranks) == ranks * (n / size)
  {
    if ranks > 0 {
      TotalShareIsProduct(n, size, ranks - 1);
    }
  }

  /** With the simulation's constants, the processes that pass the startup
      check hold exactly `N_AGENTES_GLOBAL` agents together. */
  lemma NoAgentDropped(size: int)
    requires size >= 1 && HGlobal % size == 0
    ensures TotalShare(AgentsGlobal, size, size) == AgentsGlobal
  {
    AgentsDivideWhenRowsDo(size);
    TotalShareDropsRemainder(AgentsGlobal, size);
  }

  /** Season codes: 0 is the starting season, 1 the other. */
  function Toggle(season: int): (s: int)
    ensures s == 0 || s == 1
    ensures s == 0 <==> season != 0
  {
    if season == 0 then 1 else 0
  }

  /** Step 5.1 of cycle `t`: toggle every `CICLO_SAZONAL_S` cycles, never at
      t = 0. The season changes exactly on those cycles and stays a season
      code. */
  function SeasonStep(season: int, t: int): (s: int)
    ensures s != season <==> t > 0 && t % SeasonPeriod == 0
    ensures (season == 0 || season == 1) ==> (s == 0 || s == 1)
  {
    if t > 0 && t % SeasonPeriod == 0 then Toggle(season) else season
  }

  /** The season in force during cycle `t`, in closed form. */
  function SeasonAt(t: nat): (s: int)
    ensures s == 0 || s == 1
  {
    (t / SeasonPeriod) % 2
  }

  /** One step of the clock moves the closed form from cycle t - 1 to cycle t. */
  lemma SeasonStepAdvances(t: nat)
    requires t >= 1
    ensures SeasonStep(SeasonAt(t - 1), t) == SeasonAt(t)
  {
    var q := (t - 1) / SeasonPeriod;
    var r := (t - 1) % SeasonPeriod;
    assert t == q * SeasonPeriod + (r + 1);
    if r + 1 == SeasonPeriod {
      DivModUnique(t, SeasonPeriod, q + 1, 0);
      assert (q + 1) % 2 != q % 2;
    } else {
      assert 0 <= r + 1 < SeasonPeriod;
      assert t / SeasonPeriod == q;
    }
  }

  /** The season changes between consecutive cycles exactly at the multiples
      of the period; over `CICLOS_T` cycles that is at 25, 50 and 75. */
  lemma SeasonChanges(t: nat)
    requires 1 <= t < Cycles
    ensures SeasonAt(t) != SeasonAt(t - 1) <==> t % SeasonPeriod == 0
    ensures SeasonAt(t) != SeasonAt(t - 1) <==> (t == 25 || t == 50 || t == 75)
  {
    SeasonStepAdvances(t);
  }

  /** MPI_Bcast from rank 0: every process receives the root's value,
      whatever it held before. */
  function Broadcast(rootValue: int, ownValue: int): (v: int)
  {
    rootValue
  }

  /** The broadcast after a toggle changes nothing: every process steps the
      same clock, so the season it computed for cycle t is already the one
      rank 0 sends. */
  lemma BroadcastChangesNothing(t: nat)
    requires t >= 1
    ensures var own := SeasonStep(SeasonAt(t - 1), t); Broadcast(SeasonAt(t), own) == own
  {
    SeasonStepAdvances(t);
  }

  /** `main` as run by process `rank`: the startup check, then the cycle
      loop. `seasons[t]` is the season after step 5.1 of cycle `t`; the
      steps of the loop that only exist as TODOs, and the grid update whose
      body is not part of this model, are left out. */
  method Run(rank: int, size: int) returns (exitCode: int, seasons: seq<int>)
    requires ValidProcess(rank, size)
    ensures exitCode == (if HGlobal % size == 0 then 0 else 1)
    ensures exitCode == 1 ==> seasons == []
    ensures exitCode == 0 ==> |seasons| == Cycles
    ensures exitCode == 0 ==> forall t :: 0 <= t < |seasons| ==> seasons[t] == SeasonAt(t)
  {
    var startup := Decompose(rank, size);
    if startup.Reject? {
      return startup.exitCode, [];
    }
    var season := 0;
    seasons := [];
    for t := 0 to Cycles
      invariant |seasons| == t
      invariant forall k :: 0 <= k < t ==> seasons[k] == SeasonAt(k)
      invariant season == if t == 0 then 0 else SeasonAt(t - 1)
    {
      if t > 0 {
        SeasonStepAdvances(t);
      }
      if t > 0 && t % SeasonPeriod == 0 {
        season := Toggle(season);
        // rank 0 runs this same loop, so after its toggle it holds SeasonAt(t)
        BroadcastChangesNothing(t);
        season := Broadcast(SeasonAt(t), season);
      }
      seasons := seasons + [season];
    }
    exitCode := 0;
  }
}

=== FILE: terrain.dfy ===
/** The terrain generator of the simulation: a stateless hash from global
    cell coordinates to a kind of terrain, and the resource ceiling of each
    kind (trabalho-pratico-2/grid.c). */
module Terrain {
  import opened CSemantics

  /** The kinds of cell, in the order of the C enum `TipoCelula`:
      ALDEIA, PESCA, COLETA, ROCADO, INTERDITADA. */
  datatype Kind = Village | Fishing | Gathering | Farmland | Restricted

  /** The integer value C gives each enumerator. */
  function Code(k: Kind): (n: nat)
    ensures n < 5
  {
    match k
    case Village => 0
    case Fishing => 1
    case Gathering => 2
    case Farmland => 3
    case Restricted => 4
  }

  /** The cast `(TipoCelula)n` for an integer inside the enum's range:
      the enumerator whose value is `n`. */
  function KindOf(n: int): (k: Kind)
    requires 0 <= n < 5
    ensures Code(k) == n
  {
    if n == 0 then Village
    else if n == 1 then Fishing
    else if n == 2 then Gathering
    else if n == 3 then Farmland
    else Restricted
  }

  /** Casting an enumerator's value back gives the same enumerator. */
  lemma CodeRoundTrip(k: Kind)
    ensures KindOf(Code(k)) == k
  {
  }

  /** The integer `f_tipo` casts to the enum: `abs((gx * 31 + gy * 7) % 5)`
      with C's truncating `%`. */
  function KindCode(gx: int, gy: int): (n: int)
    ensures 0 <= n < 5
  {
    Abs(CRem(gx * 31 + gy * 7, 5))
  }

  /** `f_tipo`: the kind of terrain at global cell (gx, gy). */
  function KindAt(gx: int, gy: int): (k: Kind)
    ensures Code(k) == KindCode(gx, gy)
  {
    KindOf(KindCode(gx, gy))
  }

  /** `f_recurso` on the enum's integer value: the five kinds have fixed
      ceilings, and any other value falls to the `default` branch. */
  function CeilingOfCode(code: int): (c: real)
    ensures 0 <= code < 5 ==> 0.0 <= c <= 100.0
    ensures c == 0.0 <==> code == 4
    ensures !(0 <= code < 5) ==> c == 10.0
  {
    if code == 0 then 100.0
    else if code == 1 then 50.0
    else if code == 2 then 30.0
    else if code == 3 then 80.0
    else if code == 4 then 0.0
    else 10.0
  }

  /** The resource ceiling of a kind of terrain. */
  function Ceiling(k: Kind): (c: real)
    ensures 0.0 <= c <= 100.0
    ensures c == 0.0 <==> k == Restricted
  {
    CeilingOfCode(Code(k))
  }

  /** The ceilings rank the kinds: restricted land holds nothing, then
      gathering, fishing, farmland, and the village holds the most. */
  lemma CeilingOrder()
    ensures Ceiling(Restricted) == 0.0
    ensures Ceiling(Restricted) < Ceiling(Gathering) < Ceiling(Fishing)
    ensures Ceiling(Fishing) < Ceiling(Farmland) < Ceiling(Village) == 100.0
    ensures Ceiling(Gathering) == 30.0 && Ceiling(Fishing) == 50.0 && Ceiling(Farmland) == 80.0
    ensures forall k :: Ceiling(k) <= Ceiling(Village)
  {
  }

  /** Every code `f_tipo` produces names one of the five enumerators, so the
      `default` branch of `f_recurso` is never taken for generated terrain. */
  lemma DefaultCeilingUnreachable(gx: int, gy: int)
    ensures CeilingOfCode(KindCode(gx, gy)) != 10.0
    ensures CeilingOfCode(KindCode(gx, gy)) == Ceiling(KindAt(gx, gy))
  {
  }

  /** On non-negative coordinates the hash reduces to (gx + 2 * gy) mod 5,
      because 31 and 7 are 1 and 2 modulo 5. */
  lemma KindCodeOfNonNegative(gx: int, gy: int)
    requires gx >= 0 && gy >= 0
    ensures KindCode(gx, gy) == (gx + 2 * gy) % 5
  {
    var h := gx * 31 + gy * 7;
    assert h == (gx + 2 * gy) + 5 * (6 * gx + gy);
    ShiftByMultipleOfFive(gx + 2 * gy, 6 * gx + gy);
    assert CRem(h, 5) == h % 5;
  }

  lemma ShiftByMultipleOfFive(x: int, q: int)
    ensures (x + 5 * q) % 5 == x % 5
  {
    var r := x % 5;
    var d := x / 5;
    assert x + 5 * q == 5 * (d + q) + r;
  }

  /** On non-negative coordinates the terrain repeats every five columns and
      every five rows. */
  lemma KindPeriodic(gx: int, gy: int)
    requires gx >= 0 && gy >= 0
    ensures KindAt(gx + 5, gy) == KindAt(gx, gy)
    ensures KindAt(gx, gy + 5) == KindAt(gx, gy)
  {
    KindCodeOfNonNegative(gx, gy);
    KindCodeOfNonNegative(gx + 5, gy);
    KindCodeOfNonNegative(gx, gy + 5);
    var x := gx + 2 * gy;
    assert (gx + 5) + 2 * gy == x + 5 * 1;
    assert gx + 2 * (gy + 5) == x + 5 * 2;
    ShiftByMultipleOfFive(x, 1);
    ShiftByMultipleOfFive(x, 2);
    assert KindCode(gx + 5, gy) == KindCode(gx, gy);
    assert KindCode(gx, gy + 5) == KindCode(gx, gy);
  }

  /** Because the remainder is truncated and then passed through `abs`,
      mirroring a cell through the origin does not change its terrain. */
  lemma KindMirrored(gx: int, gy: int)
    ensures KindAt(-gx, -gy) == KindAt(gx, gy)
  {
    var h := gx * 31 + gy * 7;
    assert (-gx) * 31 + (-gy) * 7 == -h;
    assert CRem(-h, 5) == -CRem(h, 5);
  }
}

=== FILE: workload.dfy ===
/** The synthetic per-agent workload of the simulation
    (trabalho-pratico-2/agente.c): a busy loop whose length follows the
    resource of the agent's cell, capped at `MAX_CUSTO_CARGA`. The resource
    is a `double` in C; here it is an exact real, and the floating-point
    `dummy` accumulator the loop body updates is not modelled. */
module Workload {
  import opened CSemantics

  const MaxWorkload: int := 1000000

  /** `iteracoes` after the clamp: `(long)(recurso * 1000)`, lowered to
      `MAX_CUSTO_CARGA` when it is larger. */
  function IterationBound(resource: real): (n: int)
    ensures n <= MaxWorkload
    ensures resource >= 1000.0 ==> n == MaxWorkload
    ensures 0.0 <= resource < 1000.0 ==> 0 <= n && n as real <= resource * 1000.0 < n as real + 1.0
    ensures resource < 0.0 ==> n <= 0
  {
    var n := TruncToInt(resource * 1000.0);
    if n > MaxWorkload then MaxWorkload else n
  }

  /** A larger resource never gives a shorter loop. */
  lemma IterationBoundMonotone(r1: real, r2: real)
    requires r1 <= r2
    ensures IterationBound(r1) <= IterationBound(r2)
  {
    var x1, x2 := r1 * 1000.0, r2 * 1000.0;
    assert x1 <= x2;
    if x1 >= 0.0 {
      FloorMonotone(x1, x2);
    } else if x2 < 0.0 {
      FloorMonotone(-x2, -x1);
    }
  }

  lemma FloorMonotone(x: real, y: real)
    requires x <= y
    ensures x.Floor <= y.Floor
  {
    assert x.Floor as real <= x <= y < y.Floor as real + 1.0;
  }

  /** `executar_carga`: runs the loop `for (c = 0; c < iteracoes; c++)` and
      returns how many times its body ran. The function changes nothing
      outside its own locals, which is why this method has no `modifies`. */
  method ExecuteWorkload(resource: real) returns (runs: nat)
    ensures runs <= MaxWorkload
    ensures runs == (if IterationBound(resource) > 0 then IterationBound(resource) else 0)
    ensures resource <= 0.0 ==> runs == 0
  {
    var iterations := TruncToInt(resource * 1000.0);
    if iterations > MaxWorkload {
      iterations := MaxWorkload;
    }
    runs := 0;
    var c := 0;
    while c < iterations
      invariant 0 <= c <= (if iterations > 0 then iterations else 0)
      invariant runs == c
      decreases iterations - c
    {
      runs := runs + 1;
      c := c + 1;
    }
  }
}
